=== FILE: README.md ===
# dfaker bolus and scheduler model

A Dafny model of the decision logic of dfaker, a generator of synthetic
diabetes-device data. Three pieces are modelled:

- **Carb-event extraction** (`generate_boluses` and its stages in
  `dfaker/bolus.py`). The stitched simulator timeline of (carb, timestamp,
  glucose) rows passes through four stages. It keeps the rows with more than
  10 carbs, keeps every seventh of those, drops night rows unless glucose is
  extreme and carbs exceed 25, and attenuates large carb amounts. Each
  surviving event is then routed either to a plain bolus or to a
  bolus-calculator (wizard) record. Module `Extraction`.
- **Bolus record construction** (`check_bolus_time`, `bolus` and the normal,
  square, dual/square and interrupted builders). Each bolus-routed event
  outside every pump-suspend window becomes one record. Its sub-type is
  drawn ten ways and the record may be interrupted, in which case the plan
  survives in `expected*` fields. Module `Delivery`, with records as a
  tagged union `Dose`.
- **Meal scheduler** (`assign_carbs` and the loop of `simulate` in
  `dfaker/bg_simulator.py`). A first-match policy table chooses each
  episode's carb perturbation from the glucose, the previous perturbation
  and the in-range streak. The loop chains episodes over a horizon of whole
  days. Module `Scheduler`.

Shared pieces:

- `Numeric` covers Python's truncating `int()` and the random draws.
- `Seqs` covers the order-preserving filter, the stride slice `s[::n]` and
  the subsequence relation.
- `Results` holds the `Result` type used for error paths.

Every random value is an explicit argument of the operation that consumes it:

- A `randint` outcome is a subset type: `Coin`, `Die`, `Digit` or
  `EpisodeLength`.
- A `uniform` or `triangular` draw is a unit value `u` in [0, 1], mapped
  onto the interval.
- A `randrange` draw is a natural `k`, mapped as Python does:
  `start + step * (k mod n)`.

Three collaborators become function parameters: the carb-ratio lookup, the
dose rounding `round_to`, and the local hour of a timestamp. The ODE
integration of one episode is a parameter too. It is an oracle returning the
episode's final glucose.

## Model

| member | source | states |
|---|---|---|
| Numeric.Trunc | dfaker/bolus.py:98 | `int()` on a float truncates toward zero: the result is within one of x, on x's side of zero |
| Numeric.TruncInRange | dfaker/bg_simulator.py:68 | for a positive lower bound, `int(x) in range(lo, hi)` holds exactly when lo <= x < hi |
| Numeric.TruncInRangeFromZero | dfaker/bolus.py:57 | `int(x) in range(0, hi)` holds exactly when -1 < x < hi, because of truncation |
| Numeric.Uniform | dfaker/bolus.py:171 | a `uniform(a, b)` value lies between a and b, in either order of the bounds |
| Numeric.UniformCovers | dfaker/bolus.py:171 | every point of [a, b] is produced by some unit draw, so the draw argument loses no outcome |
| Numeric.RandRange | dfaker/bolus.py:133 | a `randrange(start, stop, step)` value lies in [start, stop) and is start plus a multiple of step |
| Numeric.RandRangeCovers | dfaker/bolus.py:133 | every start + step*j below stop is drawn by some k |
| Seqs.Filter | dfaker/bolus.py:18-21 | the filter is a subsequence of its input, holding exactly the input elements that pass, in input order |
| Seqs.FilterMultiplicity | dfaker/bolus.py:18-21 | each passing element is kept as often as the input holds it, and each failing one is dropped |
| Seqs.FilterAppend | dfaker/bolus.py:49-58 | filtering a concatenation is the concatenation of the filtered parts, so the row-by-row filters work piecewise on any split of the timeline |
| Seqs.FilterIdempotent | dfaker/bolus.py:49-58 | filtering twice with the same test changes nothing more, so the night filter removes nothing from its own output |
| Seqs.Stride | dfaker/bolus.py:44 | `s[::n]` holds s[0], s[n], s[2n], ..., is empty iff s is, and has between \|s\|/n and \|s\|/n + 1 elements |
| Seqs.StrideLength | dfaker/bolus.py:44 | `s[::n]` has exactly ceil(\|s\|/n) elements |
| Seqs.StrideIncreasing | dfaker/bolus.py:44 | a stride of a time-ordered sequence is time-ordered |
| Seqs.SubseqIncreasing | dfaker/bolus.py:49-58 | deleting rows keeps a strictly time-ordered sequence strictly ordered |
| Extraction.Significant | dfaker/bolus.py:18-21 | keeps exactly the rows with carb > 10, in timeline order |
| Extraction.CleanUp | dfaker/bolus.py:37-44 | keeps the rows at indices 0, n, 2n, ...; there are ceil(L/n) of them and the first row always survives |
| Extraction.KeptAtHour | dfaker/bolus.py:54-58 | the night test in real terms: a row is kept iff its hour is 7..22, or its glucose is <= -1 or >= 250 and its carbs exceed 25 |
| Extraction.RemoveNightBoluses | dfaker/bolus.py:46-60 | an order-preserving subsequence holding exactly the rows whose local hour passes or whose glucose and carbs trigger the override |
| Extraction.Attenuate | dfaker/bolus.py:25-30 | attenuation never increases a value, changes it iff it exceeds 30, at most halves a non-negative value, and keeps a value above 10 above 10 |
| Extraction.AttenuateTwiceReduces | dfaker/bolus.py:25-30 | attenuating a result that is still above 30 lowers it again, so the stage is not idempotent |
| Extraction.AttenuateNotIdempotent | dfaker/bolus.py:25-30 | 200 attenuates to 100, and 100 to 75 |
| Extraction.AttenuateNotMonotone | dfaker/bolus.py:25-30 | the branches do not meet: 121 attenuates below what 120 does |
| Extraction.AttenuateAll | dfaker/bolus.py:25-30 | only carb amounts change, each by the attenuation, and none increases; times and glucose stay put |
| Extraction.BolusRouteOutcomes | dfaker/bolus.py:69-70 | exactly the outcomes 2 and 4 of `randint(0, 5)` route to a plain bolus |
| Extraction.Split | dfaker/bolus.py:62-74 | the output lengths sum to the input length, and the bolus side gets one row per draw of 2 or 4 |
| Extraction.SplitPartition | dfaker/bolus.py:67-74 | the two outputs together hold every input row exactly as often as the input, and each is an order-preserving subsequence |
| Extraction.SplitIsFilter | dfaker/bolus.py:68-73 | each output equals the rows whose draw selects that side, in input order |
| Extraction.SplitAppend | dfaker/bolus.py:68-73 | splitting a concatenation splits each part, so earlier rows precede later ones on either side |
| Extraction.Survivors | dfaker/bolus.py:18-30 | every event reaching routing is an attenuated significant timeline row still above 10 carbs; at most ceil(significant/7) survive; time order is kept; and a row reaches routing, attenuated, exactly when it is a significant row at a position `[::7]` keeps and passes the night filter |
| Extraction.SurvivorsComplete | dfaker/bolus.py:22-30 | a significant row at index i with i % 7 == 0 that passes the night filter is among the attenuated survivors |
| Extraction.SurvivorsSound | dfaker/bolus.py:22-30 | every survivor is the attenuated copy of a significant row at an index i with i % 7 == 0 that passes the night filter; a row dropped by the stride or at night never reaches routing |
| Extraction.SurvivorsSpec | dfaker/bolus.py:18-30 | the four stages, each applied to the previous one's output, keep the survivors derived from the timeline, counted and ordered |
| Extraction.RouteEvents | dfaker/bolus.py:31-35 | succeeds iff both sides of the split are non-empty; bolus events carry the carb and time of the bolus-routed rows, wizard events are the wizard-routed rows |
| Extraction.RouteEventsSelects | dfaker/bolus.py:31-35 | every routed event comes from a survivor, and both outputs keep the survivors' time order |
| Extraction.RouteKeepsDerivation | dfaker/bolus.py:31-35 | routing keeps what holds of every survivor: wizard events derive from the timeline, bolus events are the carb and time of a derived row and exceed 10 carbs, time order is kept |
| Extraction.GenerateBoluses | dfaker/bolus.py:10-35 | succeeds exactly when routing the survivors leaves both columns non-empty, and then the two outputs together hold one event per survivor; success needs a timeline with a significant row and yields at most one event per seven significant rows |
| Extraction.GenerateBolusesSpec | dfaker/bolus.py:10-35 | end to end, wizard events are attenuated significant timeline rows, bolus events are the carb and time of such rows and exceed 10 carbs, and both are time-ordered when the timeline is |
| Delivery.CheckBolusTime | dfaker/bolus.py:91-100 | true exactly when the truncated timestamp lies in no window, both ends inclusive |
| Delivery.WindowEndsInclusive | dfaker/bolus.py:98 | a timestamp at either end of a window is suppressed |
| Delivery.InvertedWindowIgnored | dfaker/bolus.py:97-99 | a window whose truncated start is after its truncated end suppresses nothing |
| Delivery.SubTypeOf | dfaker/bolus.py:113-119 | the dispatch as ranges: 1..2 dual/square, 3 square, 0 and 4..9 normal, each an if-and-only-if |
| Delivery.SubTypeOutcomes | dfaker/bolus.py:113-119 | draws 1 and 2 give dual/square, 3 gives square, and the other seven give normal |
| Delivery.PlannedDuration | dfaker/bolus.py:133 | a planned duration is a multiple of 300000 in [1800000, 5100000]; the exclusive upper bound is never drawn |
| Delivery.PlannedDurationCovers | dfaker/bolus.py:146 | every multiple of 300000 in [1800000, 5100000] is a possible plan |
| Delivery.InterruptionTime | dfaker/bolus.py:187 | an interruption time is a multiple of 300000 with 300000 <= t < duration |
| Delivery.Insulin | dfaker/bolus.py:130 | the dose times the carb ratio equals the truncated carbs; a zero ratio is the division error |
| Delivery.InterruptedBolus | dfaker/bolus.py:166-172 | an interrupted normal keeps the plan as expectedNormal and delivers a rounded amount from [0, plan] |
| Delivery.NormalBolus | dfaker/bolus.py:152-164 | a normal record plans the rounded dose, and is interrupted iff the interrupt draw is 1; an uninterrupted one delivers the plan, an interrupted one keeps it as expectedNormal and delivers the rounding of some part of it |
| Delivery.SquareBolus | dfaker/bolus.py:141-150 | a square record extends the rounded dose over a planned duration and is never interrupted |
| Delivery.InterruptedDualSquare | dfaker/bolus.py:174-194 | the coin at 1 gives the normal-leg variant and at 0 the extended-leg one; the planned normal, extended and duration are kept; a cut normal leg delivers a rounded part of its plan with extended and duration zeroed; a cut extended leg stops at a 5-minute step before the planned end and delivers the planned rate up to then |
| Delivery.DeliveredAtRate | dfaker/bolus.py:188-192 | the planned rate for part of the duration delivers an amount between 0 and the planned extended amount |
| Delivery.DualSquareBolus | dfaker/bolus.py:124-139 | the planned normal part is rounded from between a third and a half of the dose and the rounded rest is extended over a planned duration (a multiple of 300000 in [1800000, 5100000]); interrupted iff the interrupt draw is 1, with the coin choosing the leg cut short; an interruption stays within the plan as InterruptedDualSquare states |
| Delivery.MakeBolus | dfaker/bolus.py:112-164 | a record's sub-type follows the dispatch draw and its time is the event's; it is interrupted iff the sub-type is not square and the interrupt draw is 1; only a zero ratio fails; its planned amounts come from `int(value) / carb_ratio` as each builder splits it (all normal, all extended, or a third-to-half normal with the rest extended), over a planned duration, and any interruption stays within the plan |
| Delivery.Boluses | dfaker/bolus.py:102-122 | succeeds iff every event outside all windows has a nonzero ratio; then there is one record per such event, in input order |
| Delivery.BolusesRecords | dfaker/bolus.py:111-122 | record j is exactly the record built for the j-th event outside all windows, with that event's own draws |
| Delivery.WindowRemovesRecord | dfaker/bolus.py:120-121 | an event inside a window yields no record, and the same event without the window yields one |
| Scheduler.SelectRule | dfaker/bg_simulator.py:40-57 | the selected rule's condition holds and no earlier rule's does |
| Scheduler.SelectRuleIsFirstMatch | dfaker/bg_simulator.py:40-57 | the table is total and first-match: rule i is chosen iff its condition holds and no earlier one does |
| Scheduler.Bounds | dfaker/bg_simulator.py:41-57 | every rule draws from a non-empty interval within [-300, 300], and only the high-glucose and after-large-meal rules have an upper bound at or below 0 |
| Scheduler.AssignCarbs | dfaker/bg_simulator.py:34-58 | the perturbation lies in the chosen rule's interval, spelled out per glucose band, streak and last-carbs case |
| Scheduler.InRangeBand | dfaker/bg_simulator.py:68 | `int(sugar) in range(80, 195)` holds exactly when 80 <= sugar < 195 |
| Scheduler.TrailingInRange | dfaker/bg_simulator.py:65-71 | the count of trailing in-range values: all of them are in range, and the value before them is not |
| Scheduler.Simulate | dfaker/bg_simulator.py:60-83 | episodes run iff the horizon is positive; each fits the horizon, follows its draws, starts 5 minutes after the previous one ends, and continues its glucose, carbs and streak; the last ends within 5 minutes before the horizon |
| Scheduler.StreakIsTrailing | dfaker/bg_simulator.py:68-71 | each episode's streak is the number of trailing in-range glucose values up to its start |
| Scheduler.StreakImpliesInRange | dfaker/bg_simulator.py:44-49 | whenever the streak is non-empty the current glucose is in [80, 195) |
| Scheduler.EpisodesDisjoint | dfaker/bg_simulator.py:77-82 | every later episode starts at least 5 minutes after an earlier one ends |

## Behaviour worth noting

Points where the code's behaviour is easy to misread. Only the "8 of 10"
bullet contradicts documentation, namely a comment in the code. The model
follows the code in each case.

- `generate_boluses` fails when either output is empty. The column slicing at `dfaker/bolus.py:33-34` raises IndexError on an empty list, so `RouteEvents` returns an error (`EmptyBolusColumn` or `EmptyWizardColumn`) rather than empty outputs.
- The comment at `dfaker/bolus.py:118` says "8 of 10". The dispatch gives normal for 7 of the 10 outcomes.
- The planned duration never reaches 5400000, because `randrange` excludes its upper bound. An interruption time is at least 300000 and below the planned duration.
- A zero carb ratio raises ZeroDivisionError at `dfaker/bolus.py:130,148,158`. The model has an error path for it instead of requiring a positive ratio.
- Significance is `carb > 10` on signed values, so a negative carb amount is never significant.
- The insulin is computed from the truncated carb amount `int(value)`.
- The dual/square normal part is drawn from the unrounded insulin, while `extended` subtracts the rounded normal part.

## Left out

- Python floats are modelled as exact reals: there is no float rounding, NaN or infinity. Equalities such as `Insulin`'s dose times ratio equal to the truncated carbs, the delivered-at-rate identity of `InterruptedDualSquare` and `DeliveredAtRate`, and the products of `Attenuate` that later reach `int(value)` hold in the program only up to float rounding.
- The ODE integration `simulator` (`dfaker/bg_simulator.py:5-32`) is floating-point numerics over scipy. It is the `finalGlucose` oracle, and the model assumes it always returns a final sample. A capped last episode shorter than 5 minutes asks `np.linspace` for fewer than one sample, which would leave no final sample; the oracle hides that case.
- Scheduler.Simulate: returns the schedule of episodes, not the stitched sample array of `dfaker/bg_simulator.py:84-89`, since the samples come from the oracle.
- Scheduler.AssignCarbs: states only the interval each rule draws from. Whether the draw is uniform or triangular, and the triangular mode, are not modelled.
- Random distributions in general: only the set of values each draw can produce is modelled.
- `get_carb_ratio` (`dfaker/bolus.py:76-89`) depends on pump settings code that is not part of this model. The ratio is the `carbRatio` parameter.
- `tools.round_to` is not part of this model. It is the uninterpreted `roundTo` parameter, and dose properties are stated on the values before rounding.
- `tools.make_timesteps` is not part of this model. Timeline rows already carry absolute timestamps.
- `common_fields.add_common_fields` is not part of this model. Device time, time zone and other record metadata fields are omitted.
- The timezone conversion (`dfaker/bolus.py:53`) is the `localHour` parameter.
- numpy array packing and column slicing are modelled as sequences of row records. The only behaviour kept is the failure on an empty column.
- Extraction.CleanUp: requires a positive `filter_rate`. Python rejects a zero step and reverses the rows for a negative one; only the default 7 is used.
- Delivery.InterruptedDualSquare: requires a planned duration above 300000. Python raises ValueError from `randrange` otherwise, and the only caller passes at least 1800000.
- Numeric.RandRange: requires a non-empty range, where Python raises ValueError.
- Delivery.Boluses: when several events have a zero carb ratio, Python stops at the first. The model returns the same single error without saying which event caused it.

=== FILE: delivery.dfy ===
/** Bolus record construction (`bolus`, `check_bolus_time` and the sub-type
    builders in dfaker/bolus.py): every bolus-routed carb event outside the
    pump's suspend windows becomes one bolus record of a randomly drawn
    sub-type, possibly interrupted. */
module Delivery {
  import opened Numeric
  import opened Seqs
  import opened Results
  import opened Extraction

  /** A suspend window during which no bolus may be recorded, in epoch
      seconds; both ends are truncated by `int()` and both are inclusive. */
  datatype Window = Window(start: real, end: real)

  predicate InWindow(time: real, w: Window) {
    Trunc(w.start) <= Trunc(time) <= Trunc(w.end)
  }

  /** `check_bolus_time`: true exactly when the timestamp lies in none of the
      windows. */
  function CheckBolusTime(time: real, windows: seq<Window>): (ok: bool)
    ensures ok <==> forall i :: 0 <= i < |windows| ==> !InWindow(time, windows[i])
  {
    if |windows| == 0 then true
    else if InWindow(time, windows[0]) then false
    else CheckBolusTime(time, windows[1..])
  }

  /** Both ends of a window suppress a bolus. */
  lemma WindowEndsInclusive(w: Window, windows: seq<Window>)
    requires Trunc(w.start) <= Trunc(w.end) && w in windows
    ensures !CheckBolusTime(w.start, windows) && !CheckBolusTime(w.end, windows)
  {
  }

  /** A window whose truncated start lies after its truncated end suppresses
      nothing. */
  lemma InvertedWindowIgnored(time: real, w: Window, windows: seq<Window>)
    requires Trunc(w.start) > Trunc(w.end)
    ensures CheckBolusTime(time, windows + [w]) == CheckBolusTime(time, windows)
  {
    var all := windows + [w];
    assert forall i :: 0 <= i < |all| ==> all[i] == w || all[i] == windows[i];
  }

  /** The three delivery sub-types. */
  datatype SubType = NormalType | SquareType | DualSquareType

  /** The dispatch on `randint(0, 9)`: 1 and 2 give dual/square, 3 gives
      square, every other outcome gives normal. */
  function SubTypeOf(d: Digit): (t: SubType)
    ensures t == NormalType <==> d == 0 || 4 <= d
    ensures t == DualSquareType <==> 1 <= d <= 2
    ensures t == SquareType <==> d == 3
  {
    if d == 1 || d == 2 then DualSquareType
    else if d == 3 then SquareType
    else NormalType
  }

  /** Seven of the ten outcomes are normal boluses, two dual/square and one
      square. */
  lemma SubTypeOutcomes()
    ensures (set d: Digit | SubTypeOf(d) == NormalType) == {0, 4, 5, 6, 7, 8, 9}
    ensures (set d: Digit | SubTypeOf(d) == DualSquareType) == {1, 2}
    ensures (set d: Digit | SubTypeOf(d) == SquareType) == {3}
    ensures |set d: Digit | SubTypeOf(d) == NormalType| == 7
    ensures |set d: Digit | SubTypeOf(d) == DualSquareType| == 2
    ensures |set d: Digit | SubTypeOf(d) == SquareType| == 1
  {
    assert (set d: Digit | SubTypeOf(d) == NormalType) == {0, 4, 5, 6, 7, 8, 9};
    assert (set d: Digit | SubTypeOf(d) == DualSquareType) == {1, 2};
    assert (set d: Digit | SubTypeOf(d) == SquareType) == {3};
  }

  /** Granularity of every bolus duration: five minutes in milliseconds. */
  const DurationStep: int := 300000

  /** `randrange(1800000, 5400000, 300000)`: the planned duration of a square
      or dual/square bolus. The upper bound is exclusive, so 90 minutes is
      never drawn. */
  function PlannedDuration(k: nat): (ms: int)
    ensures 1800000 <= ms <= 5100000
    ensures ms % DurationStep == 0
  {
    RandRange(1800000, 5400000, DurationStep, k)
  }

  /** Every multiple of five minutes from 30 to 85 minutes is a possible
      plan. */
  lemma PlannedDurationCovers(ms: int)
    requires 1800000 <= ms <= 5100000 && ms % DurationStep == 0
    ensures PlannedDuration((ms - 1800000) / DurationStep) == ms
  {
    var j := (ms - 1800000) / DurationStep;
    assert ms == 1800000 + DurationStep * j;
    RandRangeCovers(1800000, 5400000, DurationStep, j);
  }

  /** `randrange(300000, duration, 300000)`: when the extended leg stops.
      Python raises ValueError when duration <= 300000. */
  function InterruptionTime(duration: int, k: nat): (ms: int)
    requires duration > DurationStep
    ensures DurationStep <= ms < duration
    ensures ms % DurationStep == 0
  {
    RandRange(DurationStep, duration, DurationStep, k)
  }

  /** The delivery part of a bolus record, one variant per sub-type and
      completion state; each carries exactly the fields the record has. */
  datatype Dose =
    | Normal(normal: real)
    | InterruptedNormal(normal: real, expectedNormal: real)
    | Square(extended: real, duration: int)
    | DualSquare(normal: real, extended: real, duration: int)
    | DualSquareNormalInterrupted(normal: real, expectedNormal: real, extended: real, duration: int,
                                  expectedExtended: real, expectedDuration: int)
    | DualSquareExtendedInterrupted(normal: real, extended: real, duration: int,
                                    expectedExtended: real, expectedDuration: int)
  {
    function Kind(): SubType {
      match this
      case Normal(_) => NormalType
      case InterruptedNormal(_, _) => NormalType
      case Square(_, _) => SquareType
      case DualSquare(_, _, _) => DualSquareType
      case DualSquareNormalInterrupted(_, _, _, _, _, _) => DualSquareType
      case DualSquareExtendedInterrupted(_, _, _, _, _) => DualSquareType
    }

    predicate Interrupted() {
      InterruptedNormal? || DualSquareNormalInterrupted? || DualSquareExtendedInterrupted?
    }

    /** The normal amount the record was planned with: expectedNormal when
        the normal leg was cut short. */
    function PlannedNormal(): real {
      match this
      case Normal(n) => n
      case InterruptedNormal(_, e) => e
      case Square(_, _) => 0.0
      case DualSquare(n, _, _) => n
      case DualSquareNormalInterrupted(_, e, _, _, _, _) => e
      case DualSquareExtendedInterrupted(n, _, _, _, _) => n
    }

    /** The extended amount the record was planned with. */
    function PlannedExtended(): real {
      match this
      case Normal(_) => 0.0
      case InterruptedNormal(_, _) => 0.0
      case Square(x, _) => x
      case DualSquare(_, x, _) => x
      case DualSquareNormalInterrupted(_, _, _, _, x, _) => x
      case DualSquareExtendedInterrupted(_, _, _, x, _) => x
    }

    /** The duration, in milliseconds, the extended leg was planned for. */
    function PlannedLength(): int {
      match this
      case Normal(_) => 0
      case InterruptedNormal(_, _) => 0
      case Square(_, t) => t
      case DualSquare(_, _, t) => t
      case DualSquareNormalInterrupted(_, _, _, _, _, t) => t
      case DualSquareExtendedInterrupted(_, _, _, _, t) => t
    }

    /** What an interruption leaves: a normal leg cut short delivers the
        rounding of some part of its plan and no extended leg; an extended
        leg cut short stops at a five-minute step before its planned end and
        delivers the planned rate up to then. */
    ghost predicate WithinPlan(roundTo: real -> real) {
      match this
      case InterruptedNormal(n, e) =>
        exists y :: Between(0.0, y, e) && n == roundTo(y)
      case DualSquareNormalInterrupted(n, e, x, t, _, _) =>
        && x == 0.0 && t == 0
        && exists y :: Between(0.0, y, e) && n == roundTo(y)
      case DualSquareExtendedInterrupted(_, x, t, ex, et) =>
        && DurationStep <= t < et && t % DurationStep == 0
        && exists y :: Between(0.0, y, ex) && y * (et as real) == ex * (t as real) && x == roundTo(y)
      case _ => true
    }
  }

  /** A bolus record: its timestamp and its delivery. */
  datatype Bolus = Bolus(time: real, delivery: Dose)

  /** Every random value one bolus event may consume. */
  datatype BolusDraw = BolusDraw(
    subType: Digit,        // randint(0, 9) choosing the sub-type
    split: Unit,           // uniform(insulin / 3, insulin / 2) for the dual/square normal part
    duration: nat,         // randrange(1800000, 5400000, 300000)
    interrupt: Digit,      // randint(0, 9); 1 interrupts
    interruptNormal: Coin, // randint(0, 1); 1 truncates the normal leg
    undelivered: Unit,     // uniform(0, planned) withheld by an interruption
    interruption: nat      // randrange(300000, duration, 300000)
  )

  /** Python's float division by zero raises ZeroDivisionError. */
  datatype BolusError = ZeroCarbRatio

  /** The insulin a carb amount calls for: `int(value) / carb_ratio`. */
  function Insulin(carbs: real, ratio: real): (r: Result<real, BolusError>)
    ensures r.Err? <==> ratio == 0.0
    ensures r.Ok? ==> r.value * ratio == Trunc(carbs) as real
  {
    if ratio == 0.0 then Err(ZeroCarbRatio)
    else Ok(Trunc(carbs) as real / ratio)
  }

  /** `interrupted_bolus`: the planned dose is kept as expectedNormal and
      the delivered dose, before rounding, lies between 0 and the plan. */
  function InterruptedBolus(planned: real, undelivered: Unit, roundTo: real -> real): (r: Dose)
    ensures r.InterruptedNormal?
    ensures r.expectedNormal == planned
    ensures exists x :: Between(0.0, x, planned) && r.normal == roundTo(x)
  {
    var x := planned - Uniform(0.0, planned, undelivered);
    assert Between(0.0, x, planned);
    InterruptedNormal(roundTo(x), planned)
  }

  /** `normal_bolus` once the insulin is known: the rounded dose, interrupted
      when the interrupt draw is 1. */
  function NormalBolus(insulin: real, d: BolusDraw, roundTo: real -> real): (r: Dose)
    ensures r.Kind() == NormalType
    ensures r.Interrupted() <==> d.interrupt == 1
    ensures r.Normal? ==> r.normal == roundTo(insulin)
    ensures r.PlannedNormal() == roundTo(insulin)
    ensures r.WithinPlan(roundTo)
  {
    var planned := roundTo(insulin);
    if d.interrupt == 1 then InterruptedBolus(planned, d.undelivered, roundTo)
    else Normal(planned)
  }

  /** `square_bolus` once the insulin is known: never interrupted. */
  function SquareBolus(insulin: real, d: BolusDraw, roundTo: real -> real): (r: Dose)
    ensures r.Square? && !r.Interrupted()
    ensures r.extended == roundTo(insulin)
    ensures 1800000 <= r.duration <= 5100000 && r.duration % DurationStep == 0
  {
    Square(roundTo(insulin), PlannedDuration(d.duration))
  }

  /** `interrupted_dual_square_bolus`. With the coin at 1 the normal leg is
      cut short and nothing is extended; otherwise the extended leg stops at
      a five-minute step before its planned end, delivering at the planned
      rate up to then. Either way the plan survives in the expected
      fields. */
  function InterruptedDualSquare(normal: real, extended: real, duration: int, d: BolusDraw,
                                 roundTo: real -> real): (r: Dose)
    requires duration > DurationStep
    ensures r.Kind() == DualSquareType && r.Interrupted()
    ensures r.DualSquareNormalInterrupted? <==> d.interruptNormal == 1
    ensures r.PlannedNormal() == normal && r.PlannedExtended() == extended && r.PlannedLength() == duration
    ensures r.WithinPlan(roundTo)
  {
    if d.interruptNormal == 1 then
      var x := normal - Uniform(0.0, normal, d.undelivered);
      assert Between(0.0, x, normal);
      DualSquareNormalInterrupted(roundTo(x), normal, 0.0, 0, extended, duration)
    else
      var t := InterruptionTime(duration, d.interruption);
      var rate := extended / (duration as real);
      var x := rate * (t as real);
      DeliveredAtRate(extended, duration, t);
      DualSquareExtendedInterrupted(normal, roundTo(x), t, extended, duration)
  }

  /** Delivering the planned rate for part of the planned duration delivers
      a part of the planned amount. */
  lemma DeliveredAtRate(extended: real, duration: int, t: int)
    requires 0 < t < duration
    ensures var x := extended / (duration as real) * (t as real);
      Between(0.0, x, extended) && x * (duration as real) == extended * (t as real)
  {
    var dd, tt := duration as real, t as real;
    var u: Unit := tt / dd;
    var x := extended / dd * tt;
    assert x == Uniform(0.0, extended, u);
  }

  /** `dual_square_bolus` once the insulin is known: a normal part between a
      third and a half of the insulin, the rest extended over a planned
      duration, interrupted when the interrupt draw is 1; the coin then
      decides which leg is cut short. */
  function DualSquareBolus(insulin: real, d: BolusDraw, roundTo: real -> real): (r: Dose)
    ensures r.Kind() == DualSquareType
    ensures r.Interrupted() <==> d.interrupt == 1
    ensures r.DualSquareNormalInterrupted? <==> d.interrupt == 1 && d.interruptNormal == 1
    ensures exists x :: Between(insulin / 3.0, x, insulin / 2.0) && r.PlannedNormal() == roundTo(x)
    ensures r.PlannedExtended() == roundTo(insulin - r.PlannedNormal())
    ensures 1800000 <= r.PlannedLength() <= 5100000 && r.PlannedLength() % DurationStep == 0
    ensures r.WithinPlan(roundTo)
  {
    var x := Uniform(insulin / 3.0, insulin / 2.0, d.split);
    var normal := roundTo(x);
    var extended := roundTo(insulin - normal);
    var duration := PlannedDuration(d.duration);
    assert Between(insulin / 3.0, x, insulin / 2.0);
    if d.interrupt == 1 then InterruptedDualSquare(normal, extended, duration, d, roundTo)
    else DualSquare(normal, extended, duration)
  }

  /** The amounts a record planned for a given insulin dose: a normal
      bolus plans all of it; a square bolus extends all of it; a dual/square
      bolus plans the rounding of a third to a half of it as its normal leg
      and extends the rounding of the rest; the extended leg runs for a
      planned duration; an interruption keeps within the plan. */
  ghost predicate DoseFor(r: Dose, insulin: real, roundTo: real -> real) {
    && (r.Kind() == NormalType ==> r.PlannedNormal() == roundTo(insulin))
    && (r.Kind() == SquareType ==> r.PlannedExtended() == roundTo(insulin))
    && (r.Kind() == DualSquareType ==>
          && (exists x :: Between(insulin / 3.0, x, insulin / 2.0) && r.PlannedNormal() == roundTo(x))
          && r.PlannedExtended() == roundTo(insulin - r.PlannedNormal()))
    && (r.Kind() != NormalType ==>
          1800000 <= r.PlannedLength() <= 5100000 && r.PlannedLength() % DurationStep == 0)
    && r.WithinPlan(roundTo)
  }

  /** The record for one event that passed the window check: the sub-type
      follows the dispatch draw, and only a zero carb ratio fails. */
  function MakeBolus(e: CarbEvent, ratio: real, d: BolusDraw, roundTo: real -> real)
    : (r: Result<Bolus, BolusError>)
    ensures r.Err? <==> ratio == 0.0
    ensures r.Ok? ==> r.value.time == e.time
    ensures r.Ok? ==> r.value.delivery.Kind() == SubTypeOf(d.subType)
    ensures r.Ok? ==> (r.value.delivery.Interrupted() <==>
                        SubTypeOf(d.subType) != SquareType && d.interrupt == 1)
    ensures r.Ok? ==> DoseFor(r.value.delivery, Trunc(e.carb) as real / ratio, roundTo)
  {
    match Insulin(e.carb, ratio)
    case Err(err) => Err(err)
    case Ok(insulin) =>
      var delivery :=
        match SubTypeOf(d.subType)
        case DualSquareType => DualSquareBolus(insulin, d, roundTo)
        case SquareType => SquareBolus(insulin, d, roundTo)
        case NormalType => NormalBolus(insulin, d, roundTo);
      Ok(Bolus(e.time, delivery))
  }

  /** The events that survive the window check, in order. */
  function Deliverable(events: seq<CarbEvent>, windows: seq<Window>): seq<CarbEvent> {
    Filter(events, (e: CarbEvent) => CheckBolusTime(e.time, windows))
  }

  /** `bolus`: one record per event outside every window, in input order;
      draws[i] is consumed by events[i] and carbRatio stands for the pump
      settings lookup at a timestamp. */
  function Boluses(events: seq<CarbEvent>, windows: seq<Window>, carbRatio: real -> real,
                   draws: seq<BolusDraw>, roundTo: real -> real): (r: Result<seq<Bolus>, BolusError>)
    requires |draws| == |events|
    ensures r.Ok? <==> forall i :: 0 <= i < |events| && CheckBolusTime(events[i].time, windows) ==>
                          carbRatio(events[i].time) != 0.0
    ensures r.Ok? ==> |r.value| == |Deliverable(events, windows)|
    ensures r.Ok? ==> forall j :: 0 <= j < |r.value| ==> r.value[j].time == Deliverable(events, windows)[j].time
    decreases |events|
  {
    if |events| == 0 then Ok([])
    else
      var e := events[0];
      var rest := Boluses(events[1..], windows, carbRatio, draws[1..], roundTo);
      if !CheckBolusTime(e.time, windows) then rest
      else
        match MakeBolus(e, carbRatio(e.time), draws[0], roundTo)
        case Err(err) => Err(err)
        case Ok(b) =>
          match rest
          case Err(err) => Err(err)
          case Ok(bs) => Ok([b] + bs)
  }

  /** b is the record MakeBolus builds for event e, which passed the window
      check, with draw d. */
  predicate RecordFor(b: Bolus, e: CarbEvent, windows: seq<Window>, carbRatio: real -> real,
                      d: BolusDraw, roundTo: real -> real) {
    CheckBolusTime(e.time, windows) && MakeBolus(e, carbRatio(e.time), d, roundTo) == Ok(b)
  }

  /** Reference sequence for `bolus`: the events outside every window, each
      with its own draws, in input order. */
  function DeliverablePairs(events: seq<CarbEvent>, draws: seq<BolusDraw>, windows: seq<Window>)
    : seq<(CarbEvent, BolusDraw)>
    requires |draws| == |events|
  {
    Filter(Zip(events, draws), (p: (CarbEvent, BolusDraw)) => CheckBolusTime(p.0.time, windows))
  }

  /** One step of DeliverablePairs. */
  lemma DeliverablePairsCons(events: seq<CarbEvent>, draws: seq<BolusDraw>, windows: seq<Window>)
    requires |draws| == |events| && |events| > 0
    ensures DeliverablePairs(events, draws, windows) ==
      (if CheckBolusTime(events[0].time, windows) then [(events[0], draws[0])] else []) +
      DeliverablePairs(events[1..], draws[1..], windows)
  {
    assert Zip(events, draws)[1..] == Zip(events[1..], draws[1..]);
  }

  /** Record j is the record MakeBolus builds for the j-th event outside
      every window, with that event's own draws. */
  lemma {:induction false} BolusesRecords(events: seq<CarbEvent>, windows: seq<Window>, carbRatio: real -> real,
                                          draws: seq<BolusDraw>, roundTo: real -> real)
    requires |draws| == |events|
    ensures Boluses(events, windows, carbRatio, draws, roundTo).Ok? ==>
      var bs := Boluses(events, windows, carbRatio, draws, roundTo).value;
      var dp := DeliverablePairs(events, draws, windows);
      && |bs| == |dp|
      && forall j :: 0 <= j < |bs| ==> RecordFor(bs[j], dp[j].0, windows, carbRatio, dp[j].1, roundTo)
    decreases |events|
  {
    if |events| > 0 && Boluses(events, windows, carbRatio, draws, roundTo).Ok? {
      var bs := Boluses(events, windows, carbRatio, draws, roundTo).value;
      var rest := Boluses(events[1..], windows, carbRatio, draws[1..], roundTo);
      assert rest.Ok?;
      BolusesRecords(events[1..], windows, carbRatio, draws[1..], roundTo);
      DeliverablePairsCons(events, draws, windows);
      var dp := DeliverablePairs(events, draws, windows);
      var dp' := DeliverablePairs(events[1..], draws[1..], windows);
      if CheckBolusTime(events[0].time, windows) {
        var b := MakeBolus(events[0], carbRatio(events[0].time), draws[0], roundTo);
        assert bs == [b.value] + rest.value;
        assert dp == [(events[0], draws[0])] + dp';
        forall j | 0 <= j < |bs|
          ensures RecordFor(bs[j], dp[j].0, windows, carbRatio, dp[j].1, roundTo)
        {
          if j > 0 {
            assert bs[j] == rest.value[j - 1] && dp[j] == dp'[j - 1];
          }
        }
      } else {
        assert bs == rest.value && dp == dp';
      }
    }
  }

  /** A suspend window around an event's timestamp removes its record;
      without the window the event yields exactly one record. */
  lemma WindowRemovesRecord(e: CarbEvent, w: Window, carbRatio: real -> real, d: BolusDraw,
                            roundTo: real -> real)
    requires InWindow(e.time, w) && carbRatio(e.time) != 0.0
    ensures Boluses([e], [w], carbRatio, [d], roundTo) == Ok([])
    ensures Boluses([e], [], carbRatio, [d], roundTo).Ok?
    ensures |Boluses([e], [], carbRatio, [d], roundTo).value| == 1
  {
    assert [e][1..] == [];
  }
}

=== FILE: extraction.dfy ===
/** Carb-event extraction (`generate_boluses` and its stages in
    dfaker/bolus.py): from the stitched simulator timeline to the carb events
    routed to plain boluses and those routed to bolus-calculator (wizard)
    records. */
module Extraction {
  import opened Numeric
  import opened Seqs
  import opened Results

  /** One timeline row: carb amount, absolute timestamp (epoch seconds, as a
      float) and glucose value. */
  datatype Row = Row(carb: real, time: real, glucose: real)

  /** A bolus-routed event keeps only the carb and time columns. */
  datatype CarbEvent = CarbEvent(carb: real, time: real)

  /** What `generate_boluses` returns: bolus carbs and times, and wizard
      carbs, times and glucose values, one element per event. */
  datatype Extracted = Extracted(bolus: seq<CarbEvent>, wizard: seq<Row>)

  /** Column slicing a numpy array built from an empty list raises
      IndexError. */
  datatype ExtractError = EmptyBolusColumn | EmptyWizardColumn

  /** Carb amount above which a timeline row is a carb event. */
  const SignificantCarbs: real := 10.0

  /** Default `filter_rate` of `clean_up_boluses`: one row in seven kept. */
  const FilterRate: nat := 7

  function RowTime(r: Row): real { r.time }

  /** Timeline rows are strictly ordered by timestamp. */
  predicate Chronological(rows: seq<Row>) {
    Increasing(rows, RowTime)
  }

  predicate IsSignificant(r: Row) {
    r.carb > SignificantCarbs
  }

  /** Stage 1: keep the rows whose carb amount exceeds 10, in order. */
  function Significant(rows: seq<Row>): (r: seq<Row>)
    ensures IsSubseq(r, rows)
    ensures forall i :: 0 <= i < |r| ==> r[i].carb > 10.0
    ensures forall x :: x in r <==> x in rows && x.carb > 10.0
  {
    Filter(rows, IsSignificant)
  }

  /** Stage 2 (`clean_up_boluses`): keep the rows at indices 0, n, 2n, ...
      of the significant rows; the first row always survives. */
  function CleanUp(rows: seq<Row>, filterRate: nat): (r: seq<Row>)
    requires filterRate > 0
    ensures |r| == (|rows| + filterRate - 1) / filterRate
    ensures forall i :: 0 <= i < |r| ==> 0 <= i * filterRate < |rows| && r[i] == rows[i * filterRate]
    ensures |rows| > 0 ==> |r| > 0 && r[0] == rows[0]
  {
    StrideLength(rows, filterRate);
    Stride(rows, filterRate)
  }

  /** The night filter keeps a row whose local hour is 7..22, and otherwise
      only a row whose truncated glucose is outside range(0, 250) and whose
      carb amount exceeds 25. Because `int()` truncates, glucose in (-1, 0)
      still counts as inside range(0, 250). */
  predicate KeptAtHour(r: Row, hour: int): (kept: bool)
    ensures kept <==> (7 <= hour <= 22) || ((r.glucose <= -1.0 || r.glucose >= 250.0) && r.carb > 25.0)
  {
    TruncInRangeFromZero(r.glucose, 250);
    || (6 < hour < 23)
    || (!(0 <= Trunc(r.glucose) < 250) && r.carb > 25.0)
  }

  /** Stage 3 (`remove_night_boluses`): the local hour of each timestamp is
      supplied by `localHour`, which stands for the timezone conversion. */
  function RemoveNightBoluses(rows: seq<Row>, localHour: real -> int): (r: seq<Row>)
    ensures IsSubseq(r, rows)
    ensures forall i :: 0 <= i < |r| ==> KeptAtHour(r[i], localHour(r[i].time))
    ensures forall x :: x in r <==> x in rows && KeptAtHour(x, localHour(x.time))
  {
    Filter(rows, (x: Row) => KeptAtHour(x, localHour(x.time)))
  }

  /** Stage 4: the magnitude attenuation of one carb value. */
  function Attenuate(c: real): (r: real)
    ensures r <= c
    ensures r == c <==> c <= 30.0
    ensures 0.0 <= c ==> c / 2.0 <= r
    ensures c > 10.0 ==> r > 10.0
  {
    if c > 120.0 then c / 2.0
    else if c > 30.0 then c * 0.75
    else c
  }

  /** Attenuating an already attenuated value that is still above 30 reduces
      it further: the stage must run exactly once. */
  lemma AttenuateTwiceReduces(c: real)
    requires Attenuate(c) > 30.0
    ensures Attenuate(Attenuate(c)) < Attenuate(c)
  {
  }

  lemma AttenuateNotIdempotent()
    ensures Attenuate(200.0) == 100.0 && Attenuate(Attenuate(200.0)) == 75.0
  {
  }

  /** The two branches do not meet: 121 is attenuated below 120. */
  lemma AttenuateNotMonotone()
    ensures Attenuate(121.0) < Attenuate(120.0)
  {
  }

  /** Stage 4 over the rows: only carb amounts change. */
  function AttenuateAll(rows: seq<Row>): (r: seq<Row>)
    ensures |r| == |rows|
    ensures forall i :: 0 <= i < |r| ==>
      && r[i].time == rows[i].time
      && r[i].glucose == rows[i].glucose
      && r[i].carb == Attenuate(rows[i].carb)
      && r[i].carb <= rows[i].carb
  {
    seq(|rows|, i requires 0 <= i < |rows| => rows[i].(carb := Attenuate(rows[i].carb)))
  }

  /** Stage 5 routing: `randint(0, 5)` outcomes 2 and 4 go to a plain bolus. */
  predicate RoutesToBolus(d: Die) {
    d == 2 || d == 4
  }

  /** Two of the six outcomes route to a plain bolus. */
  lemma BolusRouteOutcomes()
    ensures (set d: Die | RoutesToBolus(d)) == {2, 4}
    ensures |set d: Die | RoutesToBolus(d)| == 2
  {
    assert (set d: Die | RoutesToBolus(d)) == {2, 4};
  }

  function CountBolusDraws(draws: seq<Die>): (n: nat)
    ensures n <= |draws|
  {
    if |draws| == 0 then 0
    else (if RoutesToBolus(draws[0]) then 1 else 0) + CountBolusDraws(draws[1..])
  }

  /** Stage 5 (`bolus_or_wizard`): draws[i] routes rows[i]. The two outputs
      partition the input, each keeping input order. */
  function Split(rows: seq<Row>, draws: seq<Die>): (r: (seq<Row>, seq<Row>))
    requires |draws| == |rows|
    ensures |r.0| + |r.1| == |rows|
    ensures |r.0| == CountBolusDraws(draws)
    decreases |rows|
  {
    if |rows| == 0 then ([], [])
    else
      var rest := Split(rows[1..], draws[1..]);
      assert rows == [rows[0]] + rows[1..];
      if RoutesToBolus(draws[0]) then ([rows[0]] + rest.0, rest.1)
      else (rest.0, [rows[0]] + rest.1)
  }

  /** The two outputs of the split partition the input: together they hold
      every input row as often as the input does, and each keeps input
      order. */
  lemma SplitPartition(rows: seq<Row>, draws: seq<Die>)
    requires |draws| == |rows|
    ensures multiset(Split(rows, draws).0) + multiset(Split(rows, draws).1) == multiset(rows)
    ensures IsSubseq(Split(rows, draws).0, rows) && IsSubseq(Split(rows, draws).1, rows)
  {
    SplitMultiset(rows, draws);
    SplitSubseq(rows, draws);
  }

  lemma {:induction false} SplitMultiset(rows: seq<Row>, draws: seq<Die>)
    requires |draws| == |rows|
    ensures multiset(Split(rows, draws).0) + multiset(Split(rows, draws).1) == multiset(rows)
    decreases |rows|
  {
    if |rows| != 0 {
      var tail, dt := rows[1..], draws[1..];
      var rest := Split(tail, dt);
      SplitMultiset(tail, dt);
      assert rows == [rows[0]] + tail;
      if RoutesToBolus(draws[0]) {
        assert Split(rows, draws) == ([rows[0]] + rest.0, rest.1);
        assert multiset([rows[0]] + rest.0) == multiset{rows[0]} + multiset(rest.0);
      } else {
        assert Split(rows, draws) == (rest.0, [rows[0]] + rest.1);
        assert multiset([rows[0]] + rest.1) == multiset{rows[0]} + multiset(rest.1);
      }
    }
  }

  lemma {:induction false} SplitSubseq(rows: seq<Row>, draws: seq<Die>)
    requires |draws| == |rows|
    ensures IsSubseq(Split(rows, draws).0, rows) && IsSubseq(Split(rows, draws).1, rows)
    decreases |rows|
  {
    if |rows| != 0 {
      var tail, dt := rows[1..], draws[1..];
      var rest := Split(tail, dt);
      SplitSubseq(tail, dt);
      if RoutesToBolus(draws[0]) {
        var b := [rows[0]] + rest.0;
        assert Split(rows, draws) == (b, rest.1);
        assert b[0] == rows[0] && b[1..] == rest.0;
        assert IsSubseq(b, rows);
        assert IsSubseq(rest.1, rows);
      } else {
        var w := [rows[0]] + rest.1;
        assert Split(rows, draws) == (rest.0, w);
        assert w[0] == rows[0] && w[1..] == rest.1;
        assert IsSubseq(w, rows);
        assert IsSubseq(rest.0, rows);
      }
    }
  }

  function Untag(t: seq<(Row, Die)>): (rows: seq<Row>)
    ensures |rows| == |t|
    ensures forall i :: 0 <= i < |t| ==> rows[i] == t[i].0
  {
    seq(|t|, i requires 0 <= i < |t| => t[i].0)
  }

  predicate TaggedBolus(e: (Row, Die)) {
    RoutesToBolus(e.1)
  }

  predicate TaggedWizard(e: (Row, Die)) {
    !RoutesToBolus(e.1)
  }

  /** Reference definition of the split: each output is exactly the rows
      whose draw selects it, in input order. */
  lemma {:induction false} SplitIsFilter(rows: seq<Row>, draws: seq<Die>)
    requires |draws| == |rows|
    ensures Split(rows, draws).0 == Untag(Filter(Zip(rows, draws), TaggedBolus))
    ensures Split(rows, draws).1 == Untag(Filter(Zip(rows, draws), TaggedWizard))
    decreases |rows|
  {
    if |rows| > 0 {
      var t, t' := Zip(rows, draws), Zip(rows[1..], draws[1..]);
      assert t[1..] == t';
      SplitIsFilter(rows[1..], draws[1..]);
      FilterCons(t, TaggedBolus);
      FilterCons(t, TaggedWizard);
      var b, w := Filter(t', TaggedBolus), Filter(t', TaggedWizard);
      UntagCons(t[0], b);
      UntagCons(t[0], w);
    }
  }

  lemma UntagCons(x: (Row, Die), t: seq<(Row, Die)>)
    ensures Untag([x] + t) == [x.0] + Untag(t)
  {
  }

  /** Splitting a concatenation splits each part: rows that come earlier in
      the input come earlier in whichever output they go to. */
  lemma {:induction false} SplitAppend(a: seq<Row>, da: seq<Die>, b: seq<Row>, db: seq<Die>)
    requires |da| == |a| && |db| == |b|
    ensures Split(a + b, da + db).0 == Split(a, da).0 + Split(b, db).0
    ensures Split(a + b, da + db).1 == Split(a, da).1 + Split(b, db).1
    decreases |a|
  {
    if |a| == 0 {
      assert a + b == b && da + db == db;
    } else {
      assert (a + b)[0] == a[0] && (da + db)[0] == da[0];
      assert (a + b)[1..] == a[1..] + b;
      assert (da + db)[1..] == da[1..] + db;
      SplitAppend(a[1..], da[1..], b, db);
    }
  }

  /** e is a copy of a significant timeline row with its carbs attenuated. */
  ghost predicate DerivedFrom(e: Row, timeline: seq<Row>) {
    exists x :: x in timeline && x.carb > 10.0 && e == x.(carb := Attenuate(x.carb))
  }

  /** Stages 1 to 4 of `generate_boluses`, the events that reach routing.
      Every one comes from a significant timeline row and still exceeds 10
      carbs after attenuation; at most one in seven significant rows
      survives; chronological order is kept; and every significant row at a
      position the clean-up keeps that passes the night filter does reach
      routing, attenuated. */
  function Survivors(timeline: seq<Row>, localHour: real -> int): (s: seq<Row>)
    ensures |s| <= (|Significant(timeline)| + 6) / 7
    ensures forall x :: x in s ==> x.carb > 10.0 && DerivedFrom(x, timeline)
    ensures Chronological(timeline) ==> Chronological(s)
    ensures var sig := Significant(timeline);
      forall i :: 0 <= i < |sig| && i % FilterRate == 0 && KeptAtHour(sig[i], localHour(sig[i].time)) ==>
        sig[i].(carb := Attenuate(sig[i].carb)) in s
    ensures var sig := Significant(timeline);
      forall x :: x in s ==> exists i :: && 0 <= i < |sig| && i % FilterRate == 0
                                         && KeptAtHour(sig[i], localHour(sig[i].time))
                                         && x == sig[i].(carb := Attenuate(sig[i].carb))
  {
    var sig := Significant(timeline);
    var cleaned := CleanUp(sig, FilterRate);
    var night := RemoveNightBoluses(cleaned, localHour);
    SurvivorsSpec(timeline, sig, cleaned, night, localHour);
    SurvivorsComplete(sig, cleaned, night, localHour);
    SurvivorsSound(sig, cleaned, night, localHour);
    AttenuateAll(night)
  }

  /** Only a kept position of the clean-up that passes the night filter
      reaches stage 4: a row dropped by either stage never reaches
      routing. */
  lemma SurvivorsSound(sig: seq<Row>, cleaned: seq<Row>, night: seq<Row>, localHour: real -> int)
    requires cleaned == CleanUp(sig, FilterRate)
    requires night == RemoveNightBoluses(cleaned, localHour)
    ensures forall x :: x in AttenuateAll(night) ==>
      exists i :: && 0 <= i < |sig| && i % FilterRate == 0
                  && KeptAtHour(sig[i], localHour(sig[i].time))
                  && x == sig[i].(carb := Attenuate(sig[i].carb))
  {
    var s := AttenuateAll(night);
    IsSubseqMembers(night, cleaned);
    forall x | x in s
      ensures exists i :: && 0 <= i < |sig| && i % FilterRate == 0
                          && KeptAtHour(sig[i], localHour(sig[i].time))
                          && x == sig[i].(carb := Attenuate(sig[i].carb))
    {
      var k :| 0 <= k < |s| && s[k] == x;
      assert night[k] in cleaned;
      var j :| 0 <= j < |cleaned| && cleaned[j] == night[k];
      var i := j * FilterRate;
      StridePosition(j);
      assert sig[i] == night[k];
      assert x == sig[i].(carb := Attenuate(sig[i].carb));
    }
  }

  /** The clean-up keeps exactly the multiples of its rate. */
  lemma StridePosition(j: nat)
    ensures (j * FilterRate) % FilterRate == 0
  {
    assert j * 7 == 7 * j;
  }

  /** A kept position of the clean-up that passes the night filter reaches
      stage 4. */
  lemma SurvivorsComplete(sig: seq<Row>, cleaned: seq<Row>, night: seq<Row>, localHour: real -> int)
    requires cleaned == CleanUp(sig, FilterRate)
    requires night == RemoveNightBoluses(cleaned, localHour)
    ensures forall i :: 0 <= i < |sig| && i % FilterRate == 0 && KeptAtHour(sig[i], localHour(sig[i].time)) ==>
      sig[i].(carb := Attenuate(sig[i].carb)) in AttenuateAll(night)
  {
    var s := AttenuateAll(night);
    forall i | 0 <= i < |sig| && i % FilterRate == 0 && KeptAtHour(sig[i], localHour(sig[i].time))
      ensures sig[i].(carb := Attenuate(sig[i].carb)) in s
    {
      var j := i / FilterRate;
      assert j * FilterRate == i;
      assert j < |cleaned| by {
        assert |cleaned| == (|sig| + FilterRate - 1) / FilterRate;
        assert i + FilterRate - 1 < |sig| + FilterRate - 1;
      }
      assert cleaned[j] == sig[i];
      assert sig[i] in night;
      var k :| 0 <= k < |night| && night[k] == sig[i];
      assert s[k] == sig[i].(carb := Attenuate(sig[i].carb));
    }
  }

  /** The four stages, each applied to the previous one's output, keep the
      survivors derived, counted and ordered. */
  lemma SurvivorsSpec(timeline: seq<Row>, sig: seq<Row>, cleaned: seq<Row>, night: seq<Row>,
                      localHour: real -> int)
    requires sig == Significant(timeline)
    requires cleaned == CleanUp(sig, FilterRate)
    requires night == RemoveNightBoluses(cleaned, localHour)
    ensures var s := AttenuateAll(night);
      && |s| <= (|sig| + 6) / 7
      && (forall x :: x in s ==> x.carb > 10.0 && DerivedFrom(x, timeline))
      && (Chronological(timeline) ==> Chronological(s))
  {
    SurvivorsDerived(timeline, sig, cleaned, night);
    IsSubseqLength(night, cleaned);
    if Chronological(timeline) {
      SubseqIncreasing(sig, timeline, RowTime);
      StrideIncreasing(sig, FilterRate, RowTime);
      SubseqIncreasing(night, cleaned, RowTime);
    }
  }

  /** Attenuating rows that come, through the first three stages, from
      significant timeline rows yields rows derived from the timeline. */
  lemma SurvivorsDerived(timeline: seq<Row>, sig: seq<Row>, cleaned: seq<Row>, night: seq<Row>)
    requires sig == Significant(timeline)
    requires forall x :: x in cleaned ==> x in sig
    requires IsSubseq(night, cleaned)
    ensures forall x :: x in AttenuateAll(night) ==> x.carb > 10.0 && DerivedFrom(x, timeline)
  {
    var s := AttenuateAll(night);
    IsSubseqMembers(night, cleaned);
    forall e | e in s
      ensures e.carb > 10.0 && DerivedFrom(e, timeline)
    {
      var i :| 0 <= i < |s| && s[i] == e;
      var x := night[i];
      assert x in sig;
      assert s[i] == x.(carb := Attenuate(x.carb));
    }
  }

  /** Routing and column slicing (dfaker/bolus.py:31-35): routes every
      survivor with the draw at its position, and fails as the numpy column
      slicing does when either output is empty. */
  function RouteEvents(s: seq<Row>, routeDraw: nat -> Die): (r: Result<Extracted, ExtractError>)
    ensures var split := Split(s, RouteDraws(|s|, routeDraw));
      && (r.Ok? <==> |split.0| > 0 && |split.1| > 0)
      && (r.Ok? ==> |r.value.bolus| == |split.0| && |r.value.bolus| + |r.value.wizard| == |s|)
      && (r.Ok? ==> forall i :: 0 <= i < |r.value.bolus| ==>
            r.value.bolus[i] == CarbEvent(split.0[i].carb, split.0[i].time))
      && (r.Ok? ==> r.value.wizard == split.1)
  {
    var split := Split(s, RouteDraws(|s|, routeDraw));
    if |split.0| == 0 then Err(EmptyBolusColumn)
    else if |split.1| == 0 then Err(EmptyWizardColumn)
    else Ok(Extracted(ToCarbEvents(split.0), split.1))
  }

  /** `generate_boluses` after the timestamp conversion. It succeeds exactly
      when routing leaves both outputs non-empty, and then every survivor
      lands in one of them; success needs a timeline holding a significant
      row and yields at most one event per seven significant rows. */
  function GenerateBoluses(timeline: seq<Row>, localHour: real -> int, routeDraw: nat -> Die)
    : (r: Result<Extracted, ExtractError>)
    ensures var s := Survivors(timeline, localHour);
      var split := Split(s, RouteDraws(|s|, routeDraw));
      && (r.Ok? <==> |split.0| > 0 && |split.1| > 0)
      && (r.Ok? ==> |r.value.bolus| + |r.value.wizard| == |s|)
    ensures r.Ok? ==>
      && 0 < |r.value.bolus| && 0 < |r.value.wizard|
      && |r.value.bolus| + |r.value.wizard| <= (|Significant(timeline)| + 6) / 7
    ensures r.Ok? ==> exists i :: 0 <= i < |timeline| && timeline[i].carb > 10.0
  {
    var r := RouteEvents(Survivors(timeline, localHour), routeDraw);
    if r.Ok? then
      var sig := Significant(timeline);
      assert |sig| > 0;
      assert sig[0] in timeline && sig[0].carb > 10.0;
      r
    else r
  }

  /** The routing draws of the first n survivors, one per position. */
  function RouteDraws(n: nat, routeDraw: nat -> Die): (d: seq<Die>)
    ensures |d| == n
    ensures forall i :: 0 <= i < n ==> d[i] == routeDraw(i)
  {
    seq(n, i requires 0 <= i < n => routeDraw(i))
  }

  /** Drops the glucose column. */
  function ToCarbEvents(rows: seq<Row>): (r: seq<CarbEvent>)
    ensures |r| == |rows|
    ensures forall i :: 0 <= i < |r| ==> r[i] == CarbEvent(rows[i].carb, rows[i].time)
  {
    seq(|rows|, i requires 0 <= i < |rows| => CarbEvent(rows[i].carb, rows[i].time))
  }

  /** Routing only selects: every routed event is one of the survivors, and
      both outputs keep the survivors' chronological order. */
  lemma RouteEventsSelects(s: seq<Row>, routeDraw: nat -> Die)
    requires RouteEvents(s, routeDraw).Ok?
    ensures var out := RouteEvents(s, routeDraw).value;
      && (forall i :: 0 <= i < |out.wizard| ==> out.wizard[i] in s)
      && (forall i :: 0 <= i < |out.bolus| ==>
            exists x :: x in s && out.bolus[i] == CarbEvent(x.carb, x.time))
      && (Chronological(s) ==> Chronological(out.wizard))
      && (Chronological(s) ==> forall i, j :: 0 <= i < j < |out.bolus| ==>
            out.bolus[i].time < out.bolus[j].time)
  {
    var split := Split(s, RouteDraws(|s|, routeDraw));
    SplitSubseq(s, RouteDraws(|s|, routeDraw));
    IsSubseqMembers(split.1, s);
    CarbEventsSelect(split.0, s);
    if Chronological(s) {
      SubseqIncreasing(split.1, s, RowTime);
    }
  }

  /** The carb events of a subsequence of s come from rows of s, and are
      time-ordered when s is. */
  lemma CarbEventsSelect(b: seq<Row>, s: seq<Row>)
    requires IsSubseq(b, s)
    ensures var c := ToCarbEvents(b);
      && (forall i :: 0 <= i < |c| ==> exists x :: x in s && c[i] == CarbEvent(x.carb, x.time))
      && (Chronological(s) ==> forall i, j :: 0 <= i < j < |c| ==> c[i].time < c[j].time)
  {
    var c := ToCarbEvents(b);
    IsSubseqMembers(b, s);
    forall i | 0 <= i < |c|
      ensures exists x :: x in s && c[i] == CarbEvent(x.carb, x.time)
    {
      assert b[i] in s;
    }
    if Chronological(s) {
      SubseqIncreasing(b, s, RowTime);
      assert forall i :: 0 <= i < |c| ==> c[i].time == RowTime(b[i]);
    }
  }

  /** What the extraction output owes the timeline: every wizard event is
      an attenuated copy of a significant row, every bolus event is the carb
      and time of one (so still above 10 carbs), and both outputs are in
      chronological order when the timeline is. */
  ghost predicate TracesBack(out: Extracted, timeline: seq<Row>)
  {
    && (forall i :: 0 <= i < |out.wizard| ==> DerivedFrom(out.wizard[i], timeline))
    && (forall i :: 0 <= i < |out.bolus| ==>
          exists x :: DerivedFrom(x, timeline) && out.bolus[i] == CarbEvent(x.carb, x.time))
    && (forall i :: 0 <= i < |out.bolus| ==> out.bolus[i].carb > 10.0)
    && (Chronological(timeline) ==> Chronological(out.wizard))
    && (Chronological(timeline) ==> forall i, j :: 0 <= i < j < |out.bolus| ==>
          out.bolus[i].time < out.bolus[j].time)
  }

  /** Routing keeps whatever holds of every survivor. */
  lemma RouteKeepsDerivation(s: seq<Row>, timeline: seq<Row>, routeDraw: nat -> Die)
    requires RouteEvents(s, routeDraw).Ok?
    requires forall x :: x in s ==> x.carb > 10.0 && DerivedFrom(x, timeline)
    requires Chronological(timeline) ==> Chronological(s)
    ensures TracesBack(RouteEvents(s, routeDraw).value, timeline)
  {
    RouteEventsSelects(s, routeDraw);
    var out := RouteEvents(s, routeDraw).value;
    forall i | 0 <= i < |out.bolus|
      ensures exists x :: DerivedFrom(x, timeline) && out.bolus[i] == CarbEvent(x.carb, x.time)
      ensures out.bolus[i].carb > 10.0
    {
      var x :| x in s && out.bolus[i] == CarbEvent(x.carb, x.time);
      assert DerivedFrom(x, timeline);
    }
  }

  /** End to end: a successful extraction traces back to the timeline. */
  lemma GenerateBolusesSpec(timeline: seq<Row>, localHour: real -> int, routeDraw: nat -> Die)
    ensures GenerateBoluses(timeline, localHour, routeDraw).Ok? ==>
      TracesBack(GenerateBoluses(timeline, localHour, routeDraw).value, timeline)
  {
    var s := Survivors(timeline, localHour);
    if RouteEvents(s, routeDraw).Ok? {
      RouteKeepsDerivation(s, timeline, routeDraw);
    }
  }
}

=== FILE: numeric.dfy ===
/** Numeric helpers shared by the whole model: Python's `int()` on a float and
    the random draws of the generator. Every random value is passed in as an
    explicit argument; only the set of values a draw can take is modelled,
    never its distribution. */
module Numeric {

  /** A sample of `random.random()`, the unit draw behind `random.uniform`
      and `random.triangular`. */
  type Unit = u: real | 0.0 <= u <= 1.0

  /** An outcome of `random.randint(0, 1)`. */
  type Coin = c: int | 0 <= c <= 1

  /** An outcome of `random.randint(0, 5)`. */
  type Die = d: int | 0 <= d <= 5

  /** An outcome of `random.randint(0, 9)`. */
  type Digit = d: int | 0 <= d <= 9

  /** Python's `int()` applied to a float: truncation toward zero. */
  function Trunc(x: real): (r: int)
    ensures 0.0 <= x ==> 0 <= r && r as real <= x < r as real + 1.0
    ensures x < 0.0 ==> r <= 0 && r as real - 1.0 < x <= r as real
  {
    if x >= 0.0 then x.Floor else -((-x).Floor)
  }

  /** `int(x) in range(lo, hi)`: true exactly when lo <= x < hi, for a
      positive lower bound lo. With lo == 0 the band is wider, because
      int(-0.5) == 0; TruncInRangeFromZero covers that case. */
  lemma TruncInRange(x: real, lo: int, hi: int)
    requires 0 < lo
    ensures lo <= Trunc(x) < hi <==> lo as real <= x < hi as real
  {
  }

  /** With a lower bound of 0 the truncated band reaches down to (but not
      including) -1. */
  lemma TruncInRangeFromZero(x: real, hi: int)
    requires 0 < hi
    ensures 0 <= Trunc(x) < hi <==> -1.0 < x < hi as real
  {
  }

  /** x lies on the closed segment between a and b, whichever is larger. */
  predicate Between(a: real, x: real, b: real) {
    (a <= x <= b) || (b <= x <= a)
  }

  /** `random.uniform(a, b)` for the unit draw u. */
  function Uniform(a: real, b: real, u: Unit): (r: real)
    ensures Between(a, r, b)
  {
    var d := (b - a) * u;
    if a <= b then
      MulNonneg(b - a, u);
      MulNonneg(b - a, 1.0 - u);
      assert (b - a) * (1.0 - u) == (b - a) - d;
      a + d
    else
      MulNonneg(a - b, u);
      MulNonneg(a - b, 1.0 - u);
      assert (a - b) * u == -d;
      assert (a - b) * (1.0 - u) == (a - b) + d;
      a + d
  }

  lemma MulNonneg(x: real, y: real)
    requires 0.0 <= x && 0.0 <= y
    ensures 0.0 <= x * y
  {
  }

  /** Every point of [a, b] is reached by some unit draw, so fixing the draw
      as an argument loses no behaviour of `random.uniform`. */
  lemma UniformCovers(a: real, b: real, x: real)
    requires a < b && a <= x <= b
    ensures exists u: Unit :: Uniform(a, b, u) == x
  {
    var w := b - a;
    var q := (x - a) / w;
    assert q * w == x - a;
    assert (1.0 - q) * w == b - x;
    assert 0.0 <= q <= 1.0;
    var u: Unit := q;
    assert Uniform(a, b, u) == a + w * q;
  }

  /** Number of values `random.randrange(start, stop, step)` chooses from. */
  function RangeSize(start: int, stop: int, step: int): int
    requires step > 0
  {
    (stop - start + step - 1) / step
  }

  /** `random.randrange(start, stop, step)` for a positive step, as Python
      computes it: start + step * randbelow(n). The draw k stands for the
      underlying random integer; Python raises ValueError when the range is
      empty, which is what the precondition excludes. */
  function RandRange(start: int, stop: int, step: int, k: nat): (r: int)
    requires step > 0 && start < stop
    ensures start <= r < stop
    ensures exists j: nat :: r == start + step * j
  {
    RangeSizeBound(start, stop, step);
    var n := RangeSize(start, stop, step);
    var j: nat := k % n;
    StepBelow(j, n, step, stop - start);
    start + step * j
  }

  lemma RangeSizeBound(start: int, stop: int, step: int)
    requires step > 0 && start < stop
    ensures RangeSize(start, stop, step) >= 1
    ensures step * (RangeSize(start, stop, step) - 1) < stop - start
  {
    var n := RangeSize(start, stop, step);
    var m := stop - start + step - 1;
    assert m == step * n + m % step;
    assert step * (n - 1) == m - m % step - step;
  }

  lemma StepBelow(j: int, n: int, step: int, span: int)
    requires 0 <= j < n && step > 0
    requires step * (n - 1) < span
    ensures 0 <= step * j < span
  {
    assert step * j <= step * (n - 1) by {
      assert step * (n - 1) - step * j == step * (n - 1 - j);
    }
  }

  /** Every value of the stepped range is drawn for some k, so randrange
      produces exactly the values start + step * j that lie below stop. */
  lemma RandRangeCovers(start: int, stop: int, step: int, j: nat)
    requires step > 0 && start + step * j < stop
    ensures RandRange(start, stop, step, j) == start + step * j
  {
    var n := RangeSize(start, stop, step);
    BelowRangeSize(stop - start, step, j);
    ModSmall(j, n);
  }

  lemma ModSmall(j: int, n: int)
    requires 0 <= j < n
    ensures j % n == j
  {
  }

  lemma BelowRangeSize(span: int, step: int, j: nat)
    requires step > 0 && step * j < span
    ensures j < (span + step - 1) / step
  {
    var m := span + step - 1;
    var q := m / step;
    assert m == step * q + m % step;
    assert step * j < step * q;
    assert step * (q - j) > 0;
  }
}

=== FILE: results.dfy ===
/** The outcome of an operation that the original program can abort with an
    exception. */
module Results {

  datatype Result<+T, +E> = Ok(value: T) | Err(error: E)
}

=== FILE: scheduler.dfy ===
/** The meal scheduler of dfaker/bg_simulator.py: `assign_carbs`, an ordered
    first-match policy choosing each episode's carb perturbation, and the
    loop of `simulate`, which chains episodes over a horizon of whole days.
    The ODE integration of one episode (`simulator`) is an oracle that
    returns the episode's final glucose. */
module Scheduler {
  import opened Numeric

  /** The rules of `assign_carbs`, named after the situation they handle. */
  datatype Rule = VeryHigh | High | InRangeStreak | VeryLow | Low | AfterLargeMeal | DefaultMeal

  /** The rules in the order `assign_carbs` tests them. */
  const Policy: seq<Rule> := [VeryHigh, High, InRangeStreak, VeryLow, Low, AfterLargeMeal, DefaultMeal]

  /** The position of a rule in the policy table. */
  function Rank(rule: Rule): (i: nat)
    ensures i < |Policy| && Policy[i] == rule
  {
    match rule
    case VeryHigh => 0
    case High => 1
    case InRangeStreak => 2
    case VeryLow => 3
    case Low => 4
    case AfterLargeMeal => 5
    case DefaultMeal => 6
  }

  /** The test of each `if`/`elif` branch taken on its own; `streak` is the
      length of `sugar_in_range`. */
  predicate Guard(rule: Rule, sugar: real, lastCarbs: real, streak: nat) {
    match rule
    case VeryHigh => sugar >= 240.0
    case High => sugar >= 200.0
    case InRangeStreak => streak >= 3
    case VeryLow => sugar <= 50.0
    case Low => sugar <= 80.0
    case AfterLargeMeal => lastCarbs > 50.0
    case DefaultMeal => true
  }

  /** The branch `assign_carbs` takes: its guard holds and no earlier
      guard does. */
  function SelectRule(sugar: real, lastCarbs: real, streak: nat): (rule: Rule)
    ensures Guard(rule, sugar, lastCarbs, streak)
    ensures forall j :: 0 <= j < Rank(rule) ==> !Guard(Policy[j], sugar, lastCarbs, streak)
  {
    if sugar >= 240.0 then VeryHigh
    else if sugar >= 200.0 then High
    else if streak >= 3 then InRangeStreak
    else if sugar <= 50.0 then VeryLow
    else if sugar <= 80.0 then Low
    else if lastCarbs > 50.0 then AfterLargeMeal
    else DefaultMeal
  }

  /** The table is total and first-match: every input selects exactly the
      first rule whose guard holds. */
  lemma SelectRuleIsFirstMatch(sugar: real, lastCarbs: real, streak: nat, i: nat)
    requires i < |Policy|
    ensures SelectRule(sugar, lastCarbs, streak) == Policy[i] <==>
      Guard(Policy[i], sugar, lastCarbs, streak) &&
      forall j :: 0 <= j < i ==> !Guard(Policy[j], sugar, lastCarbs, streak)
  {
    var r := SelectRule(sugar, lastCarbs, streak);
    assert Rank(Policy[i]) == i;
    if Guard(Policy[i], sugar, lastCarbs, streak) &&
       forall j :: 0 <= j < i ==> !Guard(Policy[j], sugar, lastCarbs, streak)
    {
      assert !(Rank(r) < i);
      assert !(i < Rank(r));
    }
  }

  /** The interval each rule draws from. Triangular draws share their
      support with a uniform one; only the support is modelled. */
  function Bounds(rule: Rule, coin: Coin): (b: (real, real))
    ensures -300.0 <= b.0 < b.1 <= 300.0
    ensures b.1 <= 0.0 <==> rule == VeryHigh || rule == High || rule == AfterLargeMeal
  {
    match rule
    case VeryHigh => (-300.0, -290.0)
    case High => (-250.0, -180.0)
    case InRangeStreak => if coin == 0 then (230.0, 250.0) else (-250.0, 250.0)
    case VeryLow => (270.0, 300.0)
    case Low => (200.0, 250.0)
    case AfterLargeMeal => (-190.0, -170.0)
    case DefaultMeal => (-50.0, 100.0)
  }

  /** `assign_carbs`: `coin` is the `randint(0, 1)` of the streak rule and
      `u` the unit draw behind the chosen distribution. */
  function AssignCarbs(sugar: real, lastCarbs: real, streak: nat, coin: Coin, u: Unit): (carbs: real)
    ensures var b := Bounds(SelectRule(sugar, lastCarbs, streak), coin); b.0 <= carbs <= b.1
    ensures sugar >= 240.0 ==> -300.0 <= carbs <= -290.0
    ensures 200.0 <= sugar < 240.0 ==> -250.0 <= carbs <= -180.0
    ensures sugar < 200.0 && streak >= 3 && coin == 0 ==> 230.0 <= carbs <= 250.0
    ensures sugar < 200.0 && streak >= 3 && coin == 1 ==> -250.0 <= carbs <= 250.0
    ensures streak < 3 && sugar <= 50.0 ==> 270.0 <= carbs <= 300.0
    ensures streak < 3 && 50.0 < sugar <= 80.0 ==> 200.0 <= carbs <= 250.0
    ensures streak < 3 && 80.0 < sugar < 200.0 && lastCarbs > 50.0 ==> -190.0 <= carbs <= -170.0
    ensures streak < 3 && 80.0 < sugar < 200.0 && lastCarbs <= 50.0 ==> -50.0 <= carbs <= 100.0
  {
    var b := Bounds(SelectRule(sugar, lastCarbs, streak), coin);
    Uniform(b.0, b.1, u)
  }

  /** `int(sugar) in range(80, 195)`: the in-range band of the streak. */
  predicate InRange(sugar: real) {
    80 <= Trunc(sugar) < 195
  }

  /** Truncation makes the band the half-open interval [80, 195). */
  lemma InRangeBand(sugar: real)
    ensures InRange(sugar) <==> 80.0 <= sugar < 195.0
  {
    TruncInRange(sugar, 80, 195);
  }

  /** The number of trailing in-range values of a glucose history. */
  function TrailingInRange(sugars: seq<real>): (n: nat)
    ensures n <= |sugars|
    ensures forall i :: |sugars| - n <= i < |sugars| ==> InRange(sugars[i])
    ensures n < |sugars| ==> !InRange(sugars[|sugars| - n - 1])
  {
    if |sugars| == 0 then 0
    else if InRange(sugars[|sugars| - 1]) then TrailingInRange(sugars[..|sugars| - 1]) + 1
    else 0
  }

  /** Minutes in a day. */
  const DayMinutes: int := 24 * 60

  /** Minutes left between the end of one episode and the start of the
      next, so that no two samples share a timestamp. */
  const Gap: int := 5

  /** An outcome of `random.randint(100, 200)`: an episode's length before
      capping at the horizon. */
  type EpisodeLength = m: int | 100 <= m <= 200 witness 100

  /** The random values one iteration of the loop consumes. */
  datatype EpisodeDraw = EpisodeDraw(
    coin: Coin,            // randint(0, 1) of the streak rule
    carbs: Unit,           // the draw behind the chosen carb distribution
    digestion: Unit,       // uniform(0.04, 0.08)
    insulin: Unit,         // uniform(0.002, 0.05)
    minutes: EpisodeLength // randint(100, 200)
  )

  /** The arguments of one `simulator` call. */
  datatype EpisodeParams = EpisodeParams(carbs: real, sugar: real, digestion: real, insulin: real,
                                         minutes: int, start: int)

  /** One iteration of the loop: the simulator arguments, the state the
      policy saw, and the final glucose the oracle returned. */
  datatype Episode = Episode(params: EpisodeParams, lastCarbs: real, streak: nat, final: real)

  /** The glucose each episode started from. */
  function SugarHistory(e: seq<Episode>): (s: seq<real>)
    ensures |s| == |e|
    ensures forall i :: 0 <= i < |e| ==> s[i] == e[i].params.sugar
  {
    seq(|e|, i requires 0 <= i < |e| => e[i].params.sugar)
  }

  /** An episode fits in the horizon: it lasts 1 to 200 minutes, starts
      before the horizon and ends by it. */
  predicate FitsHorizon(p: EpisodeParams, horizon: int) {
    && 1 <= p.minutes <= 200
    && 0 <= p.start < horizon
    && p.start + p.minutes <= horizon
  }

  /** The k-th iteration did what the loop body prescribes with draw d. */
  predicate FollowsDraw(e: Episode, d: EpisodeDraw, horizon: int, finalGlucose: EpisodeParams -> real) {
    && e.params.minutes == (if d.minutes + e.params.start > horizon then horizon - e.params.start else d.minutes)
    && e.params.carbs == AssignCarbs(e.params.sugar, e.lastCarbs, e.streak, d.coin, d.carbs)
    && e.params.digestion == Uniform(0.04, 0.08, d.digestion)
    && e.params.insulin == Uniform(0.002, 0.05, d.insulin)
    && e.final == finalGlucose(e.params)
  }

  /** The streak after seeing glucose `sugar`: one longer than the previous
      streak when `sugar` is in range, reset to 0 otherwise. */
  predicate StreakStep(previous: nat, sugar: real, streak: nat) {
    streak == if InRange(sugar) then previous + 1 else 0
  }

  /** Episode b follows episode a: it starts five minutes after a ends, from
      a's final glucose, with a's carbs as the last perturbation and a's
      streak carried on. */
  predicate Chained(a: Episode, b: Episode) {
    && b.params.start == a.params.start + a.params.minutes + Gap
    && b.params.sugar == a.final
    && b.lastCarbs == a.params.carbs
    && StreakStep(a.streak, b.params.sugar, b.streak)
  }

  /** e is what the loop of `simulate` produces for the given horizon,
      initial glucose s0, initial last perturbation c0, draws and oracle. */
  predicate Scheduled(e: seq<Episode>, horizon: int, s0: real, c0: real, draw: nat -> EpisodeDraw,
                      finalGlucose: EpisodeParams -> real) {
    && (|e| > 0 ==>
          && e[0].params.start == 0 && e[0].params.sugar == s0 && e[0].lastCarbs == c0
          && StreakStep(0, e[0].params.sugar, e[0].streak))
    && (forall k :: 0 <= k < |e| ==>
          FitsHorizon(e[k].params, horizon) && FollowsDraw(e[k], draw(k), horizon, finalGlucose))
    && (forall k :: 0 < k < |e| ==> Chained(e[k - 1], e[k]))
  }

  /** One more iteration keeps a schedule a schedule. */
  lemma ScheduledExtend(e: seq<Episode>, x: Episode, horizon: int, s0: real, c0: real,
                        draw: nat -> EpisodeDraw, finalGlucose: EpisodeParams -> real)
    requires Scheduled(e, horizon, s0, c0, draw, finalGlucose)
    requires FitsHorizon(x.params, horizon) && FollowsDraw(x, draw(|e|), horizon, finalGlucose)
    requires |e| == 0 ==>
      x.params.start == 0 && x.params.sugar == s0 && x.lastCarbs == c0 && StreakStep(0, x.params.sugar, x.streak)
    requires |e| > 0 ==> Chained(e[|e| - 1], x)
    ensures Scheduled(e + [x], horizon, s0, c0, draw, finalGlucose)
  {
  }

  /** The loop variables hold what the last episode left behind, or the
      initial values before the first one. */
  predicate Resumes(e: seq<Episode>, nextTime: int, sugar: real, lastCarbs: real, streak: nat,
                    s0: real, c0: real) {
    if |e| == 0 then nextTime == 0 && sugar == s0 && lastCarbs == c0 && streak == 0
    else
      && nextTime == e[|e| - 1].params.start + e[|e| - 1].params.minutes + Gap
      && sugar == e[|e| - 1].final
      && lastCarbs == e[|e| - 1].params.carbs
      && streak == e[|e| - 1].streak
  }

  /** The loop of `simulate`. `draw(k)` supplies the random values of
      iteration k, `sugarDraw` and `lastCarbsDraw` the initial
      `uniform(80, 180)` and `uniform(-60, 300)`, and `finalGlucose` the last
      glucose sample of the simulator's trajectory. Every episode fits the
      horizon, follows its draws and continues the previous one; the loop
      stops once the next start reaches the horizon, at most five minutes
      past it. */
  method Simulate(numDays: int, sugarDraw: Unit, lastCarbsDraw: Unit, draw: nat -> EpisodeDraw,
                  finalGlucose: EpisodeParams -> real) returns (episodes: seq<Episode>)
    ensures numDays <= 0 <==> |episodes| == 0
    ensures Scheduled(episodes, numDays * DayMinutes, Uniform(80.0, 180.0, sugarDraw),
                      Uniform(-60.0, 300.0, lastCarbsDraw), draw, finalGlucose)
    ensures |episodes| > 0 ==>
      var last := episodes[|episodes| - 1].params;
      numDays * DayMinutes <= last.start + last.minutes + Gap <= numDays * DayMinutes + Gap
  {
    var horizon := numDays * DayMinutes;
    assert numDays <= 0 <==> horizon <= 0;
    var s0 := Uniform(80.0, 180.0, sugarDraw);
    var c0 := Uniform(-60.0, 300.0, lastCarbsDraw);
    var sugar, lastCarbs := s0, c0;
    var nextTime := 0;
    var streak: nat := 0;
    episodes := [];
    while nextTime < horizon
      invariant Scheduled(episodes, horizon, s0, c0, draw, finalGlucose)
      invariant Resumes(episodes, nextTime, sugar, lastCarbs, streak, s0, c0)
      invariant |episodes| > 0 ==> nextTime <= horizon + Gap
      decreases horizon - nextTime
    {
      var d := draw(|episodes|);
      streak := if InRange(sugar) then streak + 1 else 0;
      var carbs := AssignCarbs(sugar, lastCarbs, streak, d.coin, d.carbs);
      var digestion := Uniform(0.04, 0.08, d.digestion);
      var insulin := Uniform(0.002, 0.05, d.insulin);
      var minutes: int := d.minutes;
      if minutes + nextTime > horizon {
        minutes := horizon - nextTime;
      }
      var params := EpisodeParams(carbs, sugar, digestion, insulin, minutes, nextTime);
      var final := finalGlucose(params);
      var episode := Episode(params, lastCarbs, streak, final);
      ScheduledExtend(episodes, episode, horizon, s0, c0, draw, finalGlucose);
      episodes := episodes + [episode];
      sugar := final;
      nextTime := nextTime + minutes + Gap;
      lastCarbs := carbs;
    }
  }

  /** The streak each episode saw counts the trailing in-range values of
      the glucose history up to and including that episode's start. */
  lemma {:induction false} StreakIsTrailing(e: seq<Episode>, horizon: int, s0: real, c0: real,
                                            draw: nat -> EpisodeDraw, finalGlucose: EpisodeParams -> real)
    requires Scheduled(e, horizon, s0, c0, draw, finalGlucose)
    ensures forall k :: 0 <= k < |e| ==> e[k].streak == TrailingInRange(SugarHistory(e)[..k + 1])
  {
    var h := SugarHistory(e);
    forall k | 0 <= k < |e|
      ensures e[k].streak == TrailingInRange(h[..k + 1])
    {
      StreakPrefix(e, h, k, horizon, s0, c0, draw, finalGlucose);
    }
  }

  lemma {:induction false} StreakPrefix(e: seq<Episode>, h: seq<real>, k: nat, horizon: int, s0: real, c0: real,
                                        draw: nat -> EpisodeDraw, finalGlucose: EpisodeParams -> real)
    requires Scheduled(e, horizon, s0, c0, draw, finalGlucose)
    requires h == SugarHistory(e) && k < |e|
    ensures e[k].streak == TrailingInRange(h[..k + 1])
    decreases k
  {
    assert h[..k + 1][..k] == h[..k];
    if k > 0 {
      StreakPrefix(e, h, k - 1, horizon, s0, c0, draw, finalGlucose);
      assert Chained(e[k - 1], e[k]);
    }
  }

  /** Whenever the streak rule can fire, the current glucose is in range. */
  lemma StreakImpliesInRange(e: seq<Episode>, horizon: int, s0: real, c0: real,
                             draw: nat -> EpisodeDraw, finalGlucose: EpisodeParams -> real, k: nat)
    requires Scheduled(e, horizon, s0, c0, draw, finalGlucose)
    requires k < |e| && e[k].streak >= 1
    ensures 80.0 <= e[k].params.sugar < 195.0
  {
    InRangeBand(e[k].params.sugar);
    if k > 0 {
      assert Chained(e[k - 1], e[k]);
    }
  }

  /** Episodes never overlap: each later episode starts at least five
      minutes after an earlier one ends, so the stitched timeline is in
      strictly increasing time order. */
  lemma {:induction false} EpisodesDisjoint(e: seq<Episode>, horizon: int, s0: real, c0: real,
                                            draw: nat -> EpisodeDraw, finalGlucose: EpisodeParams -> real)
    requires Scheduled(e, horizon, s0, c0, draw, finalGlucose)
    ensures forall i, j :: 0 <= i < j < |e| ==>
      e[i].params.start + e[i].params.minutes + Gap <= e[j].params.start
  {
    forall i, j | 0 <= i < j < |e|
      ensures e[i].params.start + e[i].params.minutes + Gap <= e[j].params.start
    {
      EndBeforeStart(e, i, j, horizon, s0, c0, draw, finalGlucose);
    }
  }

  lemma {:induction false} EndBeforeStart(e: seq<Episode>, i: nat, j: nat, horizon: int, s0: real, c0: real,
                                          draw: nat -> EpisodeDraw, finalGlucose: EpisodeParams -> real)
    requires Scheduled(e, horizon, s0, c0, draw, finalGlucose)
    requires i < j < |e|
    ensures e[i].params.start + e[i].params.minutes + Gap <= e[j].params.start
    decreases j
  {
    assert Chained(e[j - 1], e[j]);
    if i < j - 1 {
      EndBeforeStart(e, i, j - 1, horizon, s0, c0, draw, finalGlucose);
      assert FitsHorizon(e[j - 1].params, horizon);
    }
  }
}

=== FILE: seqs.dfy ===
/** Sequence operations the event-extraction stages are built from: an
    order-preserving filter and Python's stride slice `s[::n]`. */
module Seqs {

  /** a can be obtained from b by deleting elements, keeping the order of
      the rest. */
  predicate IsSubseq<T(==)>(a: seq<T>, b: seq<T>)
    decreases |b|
  {
    || |a| == 0
    || (&& |b| > 0
        && ((a[0] == b[0] && IsSubseq(a[1..], b[1..])) || IsSubseq(a, b[1..])))
  }

  /** Every element of a subsequence occurs in the whole sequence. */
  lemma {:induction false} IsSubseqMembers<T>(a: seq<T>, b: seq<T>)
    requires IsSubseq(a, b)
    ensures forall x :: x in a ==> x in b
    decreases |b|
  {
    if |a| != 0 {
      if a[0] == b[0] && IsSubseq(a[1..], b[1..]) {
        IsSubseqMembers(a[1..], b[1..]);
        assert a == [a[0]] + a[1..];
      } else {
        IsSubseqMembers(a, b[1..]);
      }
    }
  }

  lemma {:induction false} IsSubseqLength<T>(a: seq<T>, b: seq<T>)
    requires IsSubseq(a, b)
    ensures |a| <= |b|
    decreases |b|
  {
    if |a| != 0 {
      if a[0] == b[0] && IsSubseq(a[1..], b[1..]) {
        IsSubseqLength(a[1..], b[1..]);
      } else {
        IsSubseqLength(a, b[1..]);
      }
    }
  }

  /** The keys of s strictly increase from left to right. */
  predicate Increasing<T>(s: seq<T>, key: T -> real) {
    forall i, j :: 0 <= i < j < |s| ==> key(s[i]) < key(s[j])
  }

  /** Deleting elements keeps a strictly increasing sequence increasing. */
  lemma {:induction false} SubseqIncreasing<T>(a: seq<T>, b: seq<T>, key: T -> real)
    requires IsSubseq(a, b) && Increasing(b, key)
    ensures Increasing(a, key)
    decreases |b|
  {
    if |a| != 0 {
      if a[0] == b[0] && IsSubseq(a[1..], b[1..]) {
        SubseqIncreasing(a[1..], b[1..], key);
        IsSubseqMembers(a[1..], b[1..]);
        forall j | 0 < j < |a|
          ensures key(a[0]) < key(a[j])
        {
          assert a[j] == a[1..][j - 1];
          assert a[j] in b[1..];
        }
      } else {
        SubseqIncreasing(a, b[1..], key);
      }
    }
  }

  /** Pairs the i-th element of a with the i-th element of b. */
  function Zip<A, B>(a: seq<A>, b: seq<B>): (t: seq<(A, B)>)
    requires |b| == |a|
    ensures |t| == |a|
    ensures forall i :: 0 <= i < |t| ==> t[i] == (a[i], b[i])
  {
    seq(|a|, i requires 0 <= i < |a| => (a[i], b[i]))
  }

  /** The elements of s that satisfy p, in their original order: a
      subsequence of s holding exactly the elements of s that satisfy p. */
  function Filter<T(==,!new)>(s: seq<T>, p: T -> bool): (r: seq<T>)
    ensures IsSubseq(r, s)
    ensures forall i :: 0 <= i < |r| ==> p(r[i])
    ensures forall x :: x in r <==> x in s && p(x)
    decreases |s|
  {
    if |s| == 0 then []
    else
      var rest := Filter(s[1..], p);
      assert s == [s[0]] + s[1..];
      if p(s[0]) then [s[0]] + rest else rest
  }

  /** One step of the filter. */
  lemma FilterCons<T(!new)>(s: seq<T>, p: T -> bool)
    requires |s| > 0
    ensures Filter(s, p) == if p(s[0]) then [s[0]] + Filter(s[1..], p) else Filter(s[1..], p)
  {
  }

  /** The filter keeps every element satisfying p exactly as often as s
      holds it. */
  lemma {:induction false} FilterMultiplicity<T(!new)>(s: seq<T>, p: T -> bool)
    ensures forall x :: multiset(Filter(s, p))[x] == if p(x) then multiset(s)[x] else 0
    decreases |s|
  {
    if |s| != 0 {
      FilterMultiplicity(s[1..], p);
      assert s == [s[0]] + s[1..];
    }
  }

  /** Filtering distributes over concatenation: whatever survives from an
      earlier part of the input precedes whatever survives from a later
      part. */
  lemma {:induction false} FilterAppend<T(!new)>(a: seq<T>, b: seq<T>, p: T -> bool)
    ensures Filter(a + b, p) == Filter(a, p) + Filter(b, p)
    decreases |a|
  {
    if |a| == 0 {
      assert a + b == b;
    } else {
      assert (a + b)[1..] == a[1..] + b;
      FilterAppend(a[1..], b, p);
    }
  }

  /** Filtering twice with the same predicate changes nothing more. */
  lemma {:induction false} FilterIdempotent<T(!new)>(s: seq<T>, p: T -> bool)
    ensures Filter(Filter(s, p), p) == Filter(s, p)
    decreases |s|
  {
    if |s| != 0 {
      FilterIdempotent(s[1..], p);
    }
  }

  /** Python's `s[::n]` for a positive step n: the elements at indices
      0, n, 2n, ... ; there are ceil(|s| / n) of them. */
  function Stride<T>(s: seq<T>, n: nat): (r: seq<T>)
    requires n > 0
    ensures |s| == 0 <==> |r| == 0
    ensures |r| * n - n < |s| <= |r| * n
    ensures forall i :: 0 <= i < |r| ==> 0 <= i * n < |s| && r[i] == s[i * n]
    ensures |s| > 0 ==> r[0] == s[0]
    decreases |s|
  {
    if |s| <= n then
      if |s| == 0 then [] else [s[0]]
    else
      var rest := Stride(s[n..], n);
      StrideStep(s, n, rest);
      [s[0]] + rest
  }

  /** One step of the stride: a stride of s[n..] behind s[0] is a stride
      of s. */
  lemma StrideStep<T>(s: seq<T>, n: nat, rest: seq<T>)
    requires 0 < n < |s|
    requires |rest| * n - n < |s| - n <= |rest| * n
    requires forall i :: 0 <= i < |rest| ==> 0 <= i * n < |s| - n && rest[i] == s[n..][i * n]
    ensures |rest| * n < |s| <= (|rest| + 1) * n
    ensures forall i :: 0 <= i < |rest| + 1 ==> 0 <= i * n < |s| && ([s[0]] + rest)[i] == s[i * n]
  {
    var r := [s[0]] + rest;
    MulSucc(|rest|, n);
    forall i | 0 <= i < |r|
      ensures 0 <= i * n < |s| && r[i] == s[i * n]
    {
      if i == 0 {
        assert i * n == 0;
      } else {
        MulSucc(i - 1, n);
        assert r[i] == rest[i - 1];
      }
    }
  }

  lemma MulSucc(k: int, n: int)
    ensures (k + 1) * n == k * n + n
  {
  }

  lemma MulMono(a: int, b: int, n: int)
    requires a <= b && 0 <= n
    ensures a * n <= b * n
  {
    assert b * n - a * n == (b - a) * n;
  }

  lemma MulLess(i: int, j: int, n: int)
    requires 0 <= i < j && 0 < n
    ensures 0 <= i * n < j * n
  {
    MulMono(0, i, n);
    MulMono(i + 1, j, n);
    MulSucc(i, n);
  }

  /** The count of a positive-step stride is the ceiling of |s| / n. */
  lemma StrideLength<T>(s: seq<T>, n: nat)
    requires n > 0
    ensures |Stride(s, n)| == (|s| + n - 1) / n
  {
    var k := |Stride(s, n)|;
    CeilUnique(|s| + n - 1, n, k);
  }

  /** The quotient m / n is the unique k with k * n <= m < k * n + n. */
  lemma CeilUnique(m: int, n: int, k: int)
    requires n > 0 && k * n <= m < k * n + n
    ensures m / n == k
  {
    var q := m / n;
    assert m == q * n + m % n;
    if q < k {
      MulMono(q + 1, k, n);
      MulSucc(q, n);
    } else if q > k {
      MulMono(k + 1, q, n);
      MulSucc(k, n);
    }
  }

  /** A stride of a strictly increasing sequence is strictly increasing. */
  lemma StrideIncreasing<T>(s: seq<T>, n: nat, key: T -> real)
    requires n > 0 && Increasing(s, key)
    ensures Increasing(Stride(s, n), key)
  {
    var r := Stride(s, n);
    forall i, j | 0 <= i < j < |r|
      ensures key(r[i]) < key(r[j])
    {
      var a, b := i * n, j * n;
      MulLess(i, j, n);
      assert b < |s| && r[j] == s[b];
      assert r[i] == s[a];
    }
  }
}
